=== FILE: README.md ===
# Clinic appointment backend — doctor, patient and admin handlers

A Dafny model of the request handlers of a clinic appointment-booking backend
(Express + MongoDB). The model covers every handler in the three controller
files that decides something or changes state:

- doctor side (`controllers/doctorController.js`): the availability toggle, marking an
  appointment completed or cancelled behind an ownership guard, the profile
  update, doctor login, and the dashboard aggregation (earnings, distinct
  patients, the five latest appointments);
- patient side (`controllers/userController.js`): the registration validation cascade and
  login;
- admin side (`controllers/adminController.js`): the add-doctor validation cascade and record
  construction, and admin login against the configured credentials.

Each state-changing handler is a pure function from a store (three
collections: doctors, appointments, users) and the request fields to an
`Outcome`: the new store and the `{ success, message }` reply. The login
handlers return just the reply (doctor and user login read the store,
admin login only the configured credentials); the dashboard is a
method returning the reply and the dashboard figures. A collection is a map
from id to document plus the collection's natural order, because `find` and
`findOne` return documents in that order (the dashboard's "latest five" and
the login's "first user with this email" depend on it). New documents are
appended to that order. `Collection.Valid` says that the order lists each
stored id exactly once; every handler preserves it.

Collaborators are parameters: email syntax (`validator.isEmail`) is a
`string -> bool`, password checking (`bcrypt.compare`) a
`(string, string) -> bool`; the bcrypt hash, the uploaded image URL, the
address parse, the clock, the new document id and the schema's default for
`available` are values passed in. An exception thrown inside a handler's `try`
block is replied as `Thrown(fault)`, naming why it was thrown, since the exact
text belongs to the runtime or library.

Modules: `Common` (reply envelope, optional fields), `Collections` (the
collection and its queries), `Records` (documents and store),
`DoctorController`, `Dashboard`, `UserController`, `AdminController`.

## Model

| member | source | states |
|---|---|---|
| Collections.FindById | controllers/doctorController.js:80 | `findById` yields a record exactly when the id is stored, and then the stored record |
| Collections.FindIn | controllers/doctorController.js:124 | `find(filter)` returns only matching stored documents, no more than the order lists, and every listed matching document; a one-id order yields that document exactly when it matches |
| Collections.FindInAppend | controllers/doctorController.js:124 | querying two stretches of the natural order gives the first stretch's matches followed by the second's, so results keep natural order |
| Collections.FindInCount | controllers/doctorController.js:124 | over an order without repeats, `find` returns exactly one entry per matching id |
| Collections.FindInFrame | controllers/doctorController.js:124 | a record whose id the order does not list never appears in a query result |
| Collections.FindInFirst | controllers/userController.js:50 | the head of a non-empty query result is the record of the first matching id in natural order |
| Collections.Replace | controllers/doctorController.js:10-12 | `findByIdAndUpdate` changes only the record under that id, is a no-op for an unknown id, and keeps ids, order and validity |
| Collections.Insert | controllers/adminController.js:63-64 | `save` of a new document fails exactly on a taken id; otherwise it adds that one record at the end of the natural order, keeps the others and keeps validity |
| Collections.FindOne | controllers/userController.js:50 | `findOne` returns the first matching record in natural order, and returns nothing exactly when no listed record matches |
| DoctorController.ChangeAvailability | controllers/doctorController.js:6-18 | succeeds iff the doctor exists; then `available` is negated and no other doctor field, doctor, collection or the doctors' natural order changes; an unknown id fails on the null dereference with the store unchanged |
| DoctorController.ChangeAvailabilityInvolution | controllers/doctorController.js:9-12 | toggling availability twice gives back the original store |
| DoctorController.AppointmentComplete | controllers/doctorController.js:77-96 | succeeds iff the appointment exists and belongs to the requesting doctor; then only `isCompleted` becomes true; otherwise 'Cannot complete appointment' and the store is unchanged |
| DoctorController.AppointmentCompleteIdempotent | controllers/doctorController.js:81-85 | completing twice gives the same store and the same reply as completing once |
| DoctorController.CompleteIgnoresCancelled | controllers/doctorController.js:81-85 | a cancelled appointment can still be completed by its doctor, and stays cancelled |
| DoctorController.AppointmentCancel | controllers/doctorController.js:99-118 | the same ownership guard; on success only `cancelled` becomes true and the doctor collection is untouched; otherwise 'Cannot cancell appointment' and the store is unchanged |
| DoctorController.AppointmentCancelIdempotent | controllers/doctorController.js:102-107 | cancelling twice gives the same store, and the second request succeeds again |
| DoctorController.UpdateDoctorProfile | controllers/doctorController.js:176-185 | sets `fees`, `address` and `available` to the given values and keeps every other field, every other doctor and the doctors' natural order; an unknown id still gets the success reply and changes nothing |
| DoctorController.UpdateDoctorProfileIdempotent | controllers/doctorController.js:178-179 | repeating a profile update with the same values gives the same store and reply |
| DoctorController.UpdateThenToggle | controllers/doctorController.js:178-179 | after a profile update setting `available` to v, the toggle succeeds and leaves it at not v |
| DoctorController.LoginDoctor | controllers/doctorController.js:35-58 | every failure carries 'Invalid Credentials'; success holds iff `compare` accepts the password against the hash of the first doctor in natural order with that email; with unique emails that is any doctor with that email; an unknown email always fails |
| Dashboard.ForDoctor | controllers/doctorController.js:124 | the dashboard's list holds only that doctor's stored appointments and every one of them the natural order lists |
| Dashboard.AppointmentCount | controllers/doctorController.js:143 | on a valid collection the list has exactly one entry per appointment booked with the doctor |
| Dashboard.NewAppointmentShownFirst | controllers/doctorController.js:145 | an appointment saved last is appended to its doctor's list and is the first of the latest appointments |
| Dashboard.Reverse | controllers/doctorController.js:145 | `reverse()` keeps the length and puts element i at position n-1-i |
| Dashboard.Latest | controllers/doctorController.js:145 | the latest appointments have length min(5, n), newest first; the first is the last appointment of the list |
| Dashboard.SumEarnings | controllers/doctorController.js:126-131 | the first pass adds up exactly the amounts of completed-or-paid appointments |
| Dashboard.CountPatients | controllers/doctorController.js:133-139 | the second pass counts each distinct `userId` once |
| Dashboard.DoctorDashboard | controllers/doctorController.js:121-157 | earnings is the sum of amounts over completed-or-paid appointments, `appointments` the list length, `patients` the number of distinct `userId`s, and `latestAppointments` the reversed list cut to five |
| Dashboard.PatientsAtMostAppointments | controllers/doctorController.js:133-144 | the number of distinct patients never exceeds the number of appointments |
| Dashboard.EarningsAppend | controllers/doctorController.js:126-131 | earnings of a concatenation are the sum of the parts' earnings |
| Dashboard.EarningsNone | controllers/doctorController.js:126-131 | earnings are 0 when no appointment is completed or paid |
| Dashboard.EarningsPointwise | controllers/doctorController.js:128-129 | earnings depend only on each appointment's amount and its completed/paid flags, so `cancelled` plays no part |
| Dashboard.PatientsPointwise | controllers/doctorController.js:135-139 | the patient set depends only on each appointment's `userId` |
| Dashboard.CancelKeepsDashboard | controllers/doctorController.js:126-144 | a doctor cancelling an appointment changes no doctor's earnings, appointment count or patient set |
| UserController.CreateUser | controllers/userController.js:7-44 | 'Missing Details' iff a field is absent or empty; else 'Enter valid email' iff the email is invalid; else 'Enter a stronger password' iff the password is under 8 characters; else a taken id is reported as a duplicate key, or the user is saved with the hash, not the plaintext, at the end of the natural order; any failure leaves the store unchanged |
| UserController.MissingDetailsFirst | controllers/userController.js:12-14 | with a missing field the reply is the same whatever the email check, hash, id or store |
| UserController.EmailBeforePasswordLength | controllers/userController.js:16-21 | an invalid email is reported even when the password is also too short |
| UserController.LoginUser | controllers/userController.js:47-72 | 'User does not exist' iff no user has the email; otherwise success holds iff `compare` accepts the password against the hash of the first user in natural order with that email, and with unique emails iff some user with that email has a hash the password matches |
| UserController.RegisterThenLogin | controllers/userController.js:25-30 | a freshly registered user whose hash accepts the password can log in |
| AdminController.AddDoctor | controllers/adminController.js:8-75 | the email check comes first, then the password length, then upload, address parse and save, each failure with its own reply; on success the stored doctor carries the form's name, email, speciality, degree, experience, about and fees, the hash instead of the password, the image URL, the parsed address, the date and the schema's default availability, and is appended to the natural order; any failure leaves the store unchanged |
| AdminController.EmailBeforePassword | controllers/adminController.js:24-37 | an invalid email is reported whatever the password, even an absent one |
| AdminController.AddDoctorThenLogin | controllers/adminController.js:49-64 | a doctor just added with a unique email can log in with the form's password when the hash accepts it |
| AdminController.LoginAdmin | controllers/adminController.js:78-95 | succeeds iff email and password both equal the configured admin credentials; otherwise 'Invalid credentials' |

## Left out

- Password hashing and comparison, email syntax, image upload, JSON parsing of the address, `Date.now` and new document ids are parameters; their own behaviour is not modelled.
- Token issuing (`jwt.sign`) and the authentication middleware that puts `docId`/`userId` into the request body are not modelled.
- Reply payloads other than `success` and `message` are not modelled: the `token` of the login and registration replies, the `data` of `createUser`, `loginUser` and `addDoctor`, and the `dashData` reply field (the dashboard figures are returned separately). The `data` of those three replies is the stored document, so it includes the password hash.
- The environment configuration (`ADMIN_EMAIL`, `ADMIN_PASSWORD`, `JWT_SECRET`) is assumed set, and `jwt.sign` is assumed not to throw. With the admin credentials unset, a request without email and password would match them; that case is not modelled.
- UserController.CreateUser: "any failure leaves the store unchanged" relies on `jwt.sign` not throwing; if it threw after `save`, the reply would be a failure with the user already stored.
- Every handler runs as one atomic step; the read-then-write race in `changeAvailability` and other interleavings of concurrent requests are not modelled.
- The natural order of a collection is assumed to be the insertion order. MongoDB does not guarantee this, so "newest first" for the dashboard's latest appointments holds only under that assumption.
- Fees and appointment amounts are unbounded integers. JavaScript numbers are IEEE doubles, so fractional fees and the rounding of `earnings += item.amount` are not modelled. The model agrees with the source when amounts are whole numbers and every partial sum stays below 2^53 in magnitude.
- Dashboard.DoctorDashboard: its earnings are the exact integer sum, which equals the source's double sum only under the bound above.
- Fields of a request body are modelled as present values of their intended type: `name`, `email` and `password` of `createUser` and `email` and `password` of `addDoctor` may also be absent; all other fields are present strings, integers, booleans or addresses. A value of another JSON type (a number where a string is expected, `null`, an array) and mongoose's casting of form strings to numbers are not modelled.
- DoctorController.UpdateDoctorProfile: `fees`, `address` and `available` are assumed present. A request that omits one passes `undefined` to the update, which mongoose drops, so the stored value would be kept; the model cannot express an omitted field.
- Malformed ids (a mongoose cast error thrown by `findById`) are not modelled; an id either names a document or names none.
- Password length is counted in Dafny characters, not UTF-16 code units.
- The doctor and user schemas (`models/doctorModel.js`, `models/userModel.js`) are not part of this model: their validation, unique indexes other than the id, and defaults are not modelled, except that the default of `available` is a parameter.
- Slot booking, patient-side cancellation and payment: the route table imports handlers for them that the user controller does not define, so there is no code to model; no slot ledger appears in the model.
- The read-only handlers (`getDoctorList`, `getDoctors`, `getDoctorAppointments`, `doctorProfile`, `getUser`) only query and project fields and are not modelled.
- Server start-up, database connection, routing and the order schema carry no behaviour to model.
- Appointment snapshots of patient and doctor data (`userData`, `docData`) are not touched by any modelled handler and are left out of `Appointment`.

=== FILE: admin_controller.dfy ===
/** The admin handlers: adding a doctor, and admin login against the
    configured credentials. */
module AdminController {
  import opened Common
  import opened Collections
  import opened Records
  import DoctorController

  const InvalidEmail := "Please enter a valid email"
  const WeakPassword := "Please enter a stronger password"
  const DoctorAdded := "Doctor successfully added"
  const InvalidCredentials := "Invalid credentials"

  const MinPasswordLength := 8

  /** The text fields of the `addDoctor` form; `email` and `password` may be
      absent, the address is the JSON text as submitted. */
  datatype DoctorForm = DoctorForm(
    name: string,
    email: Option<string>,
    password: Option<string>,
    speciality: string,
    degree: string,
    experience: string,
    about: string,
    fees: int,
    address: string)

  /** What the collaborators return for one `addDoctor` request: the bcrypt
      hash, the uploaded image's URL (`None` when there is no file or the
      upload fails), the parsed address (`None` when the text is not JSON),
      the clock, the new document id, and the schema's default availability. */
  datatype Services = Services(
    hashed: string,
    imageUrl: Option<string>,
    parseAddress: string -> Option<Address>,
    now: int,
    newId: DocId,
    defaultAvailable: bool)

  /** `addDoctor`. The email is checked first (an absent one makes the
      validator throw), then the password length (an absent password makes
      `.length` throw); then the image upload, the address parse and the
      save, each of which can throw. */
  function AddDoctor(s: Store, form: DoctorForm, isEmail: string -> bool, svc: Services): (out: Outcome)
    ensures form.email.None? ==> out.reply == Caught(NotAString)
    ensures out.reply == Fail(InvalidEmail) <==> form.email.Some? && !isEmail(form.email.value)
    ensures (form.email.Some? && isEmail(form.email.value) && form.password.None?) ==>
              out.reply == Caught(NullField("length"))
    ensures out.reply == Fail(WeakPassword) <==>
              && form.email.Some? && isEmail(form.email.value)
              && form.password.Some? && |form.password.value| < MinPasswordLength
    ensures (form.email.Some? && isEmail(form.email.value)
             && form.password.Some? && |form.password.value| >= MinPasswordLength
             && svc.imageUrl.None?) ==> out.reply == Caught(UploadFailed)
    ensures (form.email.Some? && isEmail(form.email.value)
             && form.password.Some? && |form.password.value| >= MinPasswordLength
             && svc.imageUrl.Some? && svc.parseAddress(form.address).None?) ==> out.reply == Caught(AddressNotJson)
    ensures (form.email.Some? && isEmail(form.email.value)
             && form.password.Some? && |form.password.value| >= MinPasswordLength
             && svc.imageUrl.Some? && svc.parseAddress(form.address).Some?
             && svc.newId in s.doctors.byId) ==> out.reply == Caught(DuplicateKey)
    ensures out.reply.success <==>
              && form.email.Some? && isEmail(form.email.value)
              && form.password.Some? && |form.password.value| >= MinPasswordLength
              && svc.imageUrl.Some? && svc.parseAddress(form.address).Some?
              && svc.newId !in s.doctors.byId
    ensures out.reply.success ==>
              && out.reply == Ok(DoctorAdded)
              && out.store.doctors.byId.Keys == s.doctors.byId.Keys + {svc.newId}
              && out.store.doctors.order == s.doctors.order + [svc.newId]
    ensures out.reply.success ==>
              var d := out.store.doctors.byId[svc.newId];
              && d.name == form.name && d.email == form.email.value
              && d.speciality == form.speciality && d.degree == form.degree
              && d.experience == form.experience && d.about == form.about && d.fees == form.fees
              && d.password == svc.hashed && d.image == svc.imageUrl.value
              && d.available == svc.defaultAvailable
              && Some(d.address) == svc.parseAddress(form.address) && d.date == svc.now
              && (forall k :: k in s.doctors.byId ==> out.store.doctors.byId[k] == s.doctors.byId[k])
              && out.store.appointments == s.appointments && out.store.users == s.users
    ensures !out.reply.success ==> out.store == s
    ensures s.Valid() ==> out.store.Valid()
  {
    if form.email.None? then Outcome(s, Caught(NotAString))
    else if !isEmail(form.email.value) then Outcome(s, Fail(InvalidEmail))
    else if form.password.None? then Outcome(s, Caught(NullField("length")))
    else if |form.password.value| < MinPasswordLength then Outcome(s, Fail(WeakPassword))
    else if svc.imageUrl.None? then Outcome(s, Caught(UploadFailed))
    else
      match svc.parseAddress(form.address)
      case None => Outcome(s, Caught(AddressNotJson))
      case Some(address) =>
        var d := Doctor(form.name, form.email.value, svc.imageUrl.value, svc.hashed,
                        form.speciality, form.degree, form.experience, form.about,
                        form.fees, address, svc.now, svc.defaultAvailable);
        match Insert(s.doctors, svc.newId, d)
        case None => Outcome(s, Caught(DuplicateKey))
        case Some(doctors) => Outcome(s.(doctors := doctors), Ok(DoctorAdded))
  }

  /** An invalid email is reported whatever the password, even an absent one. */
  lemma EmailBeforePassword(
    s: Store, form: DoctorForm, password: Option<string>, isEmail: string -> bool, svc: Services)
    requires form.email.Some? && !isEmail(form.email.value)
    ensures AddDoctor(s, form.(password := password), isEmail, svc).reply == Fail(InvalidEmail)
  {
  }

  /** A doctor the admin has just added can log in with the password given on
      the form, provided no other doctor has that email and `compare` accepts
      the password against its hash. */
  lemma AddDoctorThenLogin(
    s: Store, form: DoctorForm, isEmail: string -> bool, svc: Services, compare: (string, string) -> bool)
    requires s.doctors.Valid() && UniqueBy(s.doctors, DoctorEmail)
    requires AddDoctor(s, form, isEmail, svc).reply.success
    requires forall k :: k in s.doctors.byId ==> s.doctors.byId[k].email != form.email.value
    requires compare(form.password.value, svc.hashed)
    ensures DoctorController.LoginDoctor(AddDoctor(s, form, isEmail, svc).store, form.email.value,
                                         form.password.value, compare).success
  {
  }

  /** The configured admin credentials (`ADMIN_EMAIL`, `ADMIN_PASSWORD`). */
  datatype AdminConfig = AdminConfig(email: string, password: string)

  /** `loginAdmin`: succeeds exactly on the configured email and password;
      the success reply carries a token and no message. */
  function LoginAdmin(config: AdminConfig, email: string, password: string): (r: Reply)
    ensures r.success <==> email == config.email && password == config.password
    ensures r.success ==> r.message == NoMessage
    ensures !r.success ==> r == Fail(InvalidCredentials)
  {
    if email == config.email && password == config.password then Reply(true, NoMessage)
    else Fail(InvalidCredentials)
  }
}

=== FILE: collections.dfy ===
/** A document collection as the handlers see it: records by id, plus the
    collection's natural order, the order an unsorted `find` or `findOne`
    visits records in. New records are appended to it, which takes the
    natural order to be the insertion order. */
module Collections {
  import opened Common

  datatype Collection<K, V> = Collection(byId: map<K, V>, order: seq<K>) {

    /** The natural order lists every stored id exactly once, and nothing else. */
    ghost predicate Valid() {
      && (forall i :: 0 <= i < |order| ==> order[i] in byId)
      && (forall k :: k in byId ==> k in order)
      && (forall i, j :: 0 <= i < j < |order| ==> order[i] != order[j])
    }
  }

  /** `findById`: the record stored under `k`, or nothing (the driver's `null`). */
  function FindById<K, V>(c: Collection<K, V>, k: K): (r: Option<V>)
    ensures r.Some? <==> k in c.byId
    ensures r.Some? ==> r.value == c.byId[k]
  {
    if k in c.byId then Some(c.byId[k]) else None
  }

  /** `findByIdAndUpdate` with a whole new record: updates the record stored
      under `k`, and does nothing (without failing) when there is none. */
  function Replace<K, V>(c: Collection<K, V>, k: K, v: V): (r: Collection<K, V>)
    ensures r.order == c.order
    ensures r.byId.Keys == c.byId.Keys
    ensures k in c.byId ==> r.byId[k] == v
    ensures forall j :: j in c.byId && j != k ==> r.byId[j] == c.byId[j]
    ensures c.Valid() ==> r.Valid()
  {
    if k in c.byId then Collection(c.byId[k := v], c.order) else c
  }

  /** `save` of a new document under id `k`: refused when `k` is taken
      (the unique `_id` index), otherwise appended to the natural order. */
  function Insert<K, V>(c: Collection<K, V>, k: K, v: V): (r: Option<Collection<K, V>>)
    ensures r.None? <==> k in c.byId
    ensures r.Some? ==> r.value.byId.Keys == c.byId.Keys + {k}
    ensures r.Some? ==> r.value.byId[k] == v
    ensures r.Some? ==> forall j :: j in c.byId ==> r.value.byId[j] == c.byId[j]
    ensures r.Some? ==> r.value.order == c.order + [k]
    ensures r.Some? && c.Valid() ==> r.value.Valid()
  {
    if k in c.byId then None else Some(Collection(c.byId[k := v], c.order + [k]))
  }

  /** The records of `m` that satisfy `p`, visited in the order `order`
      (ids of `order` that `m` does not hold are skipped). Together with
      `FindInAppend`, the clause for a one-id order fixes the result: one
      entry per matching id of `order`, in the order `order` lists them. */
  function FindIn<K, V(==)>(m: map<K, V>, order: seq<K>, p: V -> bool): (r: seq<V>)
    ensures |r| <= |order|
    ensures forall i :: 0 <= i < |r| ==> p(r[i]) && r[i] in m.Values
    ensures forall k :: k in order && k in m && p(m[k]) ==> m[k] in r
    ensures |order| == 1 && order[0] in m && p(m[order[0]]) ==> r == [m[order[0]]]
    ensures |order| == 1 && !(order[0] in m && p(m[order[0]])) ==> r == []
  {
    if order == [] then []
    else
      var rest := FindIn(m, order[1..], p);
      if order[0] in m && p(m[order[0]]) then [m[order[0]]] + rest else rest
  }

  /** A query over two stretches of the order is the query over the first
      followed by the query over the second: results keep the order. */
  lemma {:induction false} FindInAppend<K, V>(m: map<K, V>, o1: seq<K>, o2: seq<K>, p: V -> bool)
    ensures FindIn(m, o1 + o2, p) == FindIn(m, o1, p) + FindIn(m, o2, p)
  {
    if o1 != [] {
      assert (o1 + o2)[1..] == o1[1..] + o2;
      FindInAppend(m, o1[1..], o2, p);
    } else {
      assert o1 + o2 == o2;
    }
  }

  /** The ids `order` lists whose records satisfy `p`. */
  ghost function MatchingIds<K, V>(m: map<K, V>, order: seq<K>, p: V -> bool): set<K> {
    set k | k in order && k in m && p(m[k])
  }

  /** Over an order without repeats, a query returns one entry per matching id. */
  lemma {:induction false} FindInCount<K, V>(m: map<K, V>, order: seq<K>, p: V -> bool)
    requires forall i, j :: 0 <= i < j < |order| ==> order[i] != order[j]
    ensures |FindIn(m, order, p)| == |MatchingIds(m, order, p)|
  {
    if order != [] {
      var rest := order[1..];
      FindInCount(m, rest, p);
      var s := MatchingIds(m, order, p);
      var s' := MatchingIds(m, rest, p);
      assert order[0] !in rest by {
        forall j | 0 <= j < |rest| ensures rest[j] != order[0] {
          assert rest[j] == order[j + 1];
        }
      }
      if order[0] in m && p(m[order[0]]) {
        assert s == s' + {order[0]};
      } else {
        assert s == s';
      }
    }
  }

  /** An id the order does not list plays no part in a query. */
  lemma {:induction false} FindInFrame<K, V>(m: map<K, V>, order: seq<K>, p: V -> bool, k: K, v: V)
    requires k !in order
    ensures FindIn(m[k := v], order, p) == FindIn(m, order, p)
  {
    if order != [] {
      FindInFrame(m, order[1..], p, k, v);
    }
  }

  /** Position `i` of `order` holds the first id whose record satisfies `p`. */
  ghost predicate FirstMatch<K, V>(m: map<K, V>, order: seq<K>, p: V -> bool, i: int) {
    && 0 <= i < |order| && order[i] in m && p(m[order[i]])
    && forall j :: 0 <= j < i && order[j] in m ==> !p(m[order[j]])
  }

  /** The head of a non-empty query result is the record of the first match. */
  lemma {:induction false} FindInFirst<K, V>(m: map<K, V>, order: seq<K>, p: V -> bool)
    requires |FindIn(m, order, p)| > 0
    ensures exists i :: FirstMatch(m, order, p, i) && FindIn(m, order, p)[0] == m[order[i]]
  {
    if order[0] in m && p(m[order[0]]) {
      assert FirstMatch(m, order, p, 0);
    } else {
      FindInFirst(m, order[1..], p);
      var i :| FirstMatch(m, order[1..], p, i) && FindIn(m, order[1..], p)[0] == m[order[1..][i]];
      assert FirstMatch(m, order, p, i + 1);
    }
  }

  /** `find(filter)`: every record satisfying `p`, in natural order. */
  function Find<K, V(==)>(c: Collection<K, V>, p: V -> bool): seq<V> {
    FindIn(c.byId, c.order, p)
  }

  /** `findOne(filter)`: the first record in natural order satisfying `p`. */
  function FindOne<K, V(==)>(c: Collection<K, V>, p: V -> bool): (r: Option<V>)
    ensures r.Some? ==> p(r.value) && r.value in c.byId.Values
    ensures r.Some? ==> exists i :: FirstMatch(c.byId, c.order, p, i) && r.value == c.byId[c.order[i]]
    ensures r.None? ==> forall k :: k in c.order && k in c.byId ==> !p(c.byId[k])
    ensures c.Valid() ==> (r.None? <==> forall k :: k in c.byId ==> !p(c.byId[k]))
  {
    var found := Find(c, p);
    if |found| == 0 then None
    else
      FindInFirst(c.byId, c.order, p);
      Some(found[0])
  }

  /** No two records of `c` share a `key`. */
  ghost predicate UniqueBy<K, V, F>(c: Collection<K, V>, key: V -> F) {
    forall j, k :: j in c.byId && k in c.byId && key(c.byId[j]) == key(c.byId[k]) ==> j == k
  }

  /** Replacing one record by a value that agrees with it on `p` leaves the
      result of a query position by position the same, except that the old
      record may be read as the new one. */
  lemma {:induction false} FindInReplace<K, V>(m: map<K, V>, order: seq<K>, p: V -> bool, k: K, v: V)
    requires k in m
    requires p(v) == p(m[k])
    ensures |FindIn(m[k := v], order, p)| == |FindIn(m, order, p)|
    ensures forall i :: 0 <= i < |FindIn(m, order, p)| ==>
              || FindIn(m[k := v], order, p)[i] == FindIn(m, order, p)[i]
              || (FindIn(m, order, p)[i] == m[k] && FindIn(m[k := v], order, p)[i] == v)
  {
    if order != [] {
      FindInReplace(m, order[1..], p, k, v);
    }
  }
}

=== FILE: common.dfy ===
/** Values every request handler shares: optional request fields and the
    `{ success, message }` reply envelope each handler sends back. */
module Common {

  /** A request-body field that may be absent (`undefined`). */
  datatype Option<+T> = None | Some(value: T)

  /** Why the body of a handler threw; its `catch` clause replies with the
      thrown error's message, whose wording belongs to the library or runtime. */
  datatype Fault =
    | NullField(field: string)  // reading a property of `null` / `undefined`
    | NotAString                // `validator.isEmail` called on a non-string
    | UploadFailed              // no image file, or the media host rejected it
    | AddressNotJson            // `JSON.parse` of the address threw
    | DuplicateKey              // `save` of a document whose id is taken

  /** The `message` member of a reply. */
  datatype Message =
    | Text(text: string)        // a literal written in the handler
    | Thrown(fault: Fault)      // `error.message` in a catch clause
    | NoMessage                 // the reply carries no message at all

  /** The JSON envelope `{ success, message }` a handler replies with. */
  datatype Reply = Reply(success: bool, message: Message)

  function Ok(text: string): Reply { Reply(true, Text(text)) }

  function Fail(text: string): Reply { Reply(false, Text(text)) }

  function Caught(f: Fault): Reply { Reply(false, Thrown(f)) }

  function Min(a: int, b: int): int { if a <= b then a else b }
}

=== FILE: dashboard.dfy ===
/** `doctorDashboard`: the figures a doctor's dashboard shows, computed over
    that doctor's appointments in the collection's natural order. */
module Dashboard {
  import opened Common
  import opened Collections
  import opened Records
  import DoctorController

  const DashboardGenerated := "Dashboard data generated"
  const LatestCount := 5

  datatype DashData = DashData(
    earnings: int,
    appointments: nat,
    patients: nat,
    latestAppointments: seq<Appointment>)

  /** An appointment earns its amount once it is completed or paid, whether
      or not it was cancelled. */
  predicate Earns(a: Appointment) { a.isCompleted || a.payment }

  /** Reference definition: the sum of `amount` over the earning appointments. */
  function Earnings(appts: seq<Appointment>): int {
    if appts == [] then 0
    else
      var last := appts[|appts| - 1];
      Earnings(appts[..|appts| - 1]) + (if Earns(last) then last.amount else 0)
  }

  /** Reference definition: the distinct patients among `appts`. */
  function Patients(appts: seq<Appointment>): set<UserId> {
    set i | 0 <= i < |appts| :: appts[i].userId
  }

  /** `find({ docId })`: the doctor's appointments in natural order. */
  function ForDoctor(s: Store, docId: DocId): (r: seq<Appointment>)
    ensures forall i :: 0 <= i < |r| ==> r[i].docId == docId && r[i] in s.appointments.byId.Values
    ensures forall k :: (k in s.appointments.order && k in s.appointments.byId
                         && s.appointments.byId[k].docId == docId) ==> s.appointments.byId[k] in r
  {
    Find(s.appointments, (a: Appointment) => a.docId == docId)
  }

  /** On a valid collection the dashboard's list has one entry per
      appointment booked with the doctor. */
  lemma AppointmentCount(s: Store, docId: DocId)
    requires s.appointments.Valid()
    ensures |ForDoctor(s, docId)| == |set k | k in s.appointments.byId && s.appointments.byId[k].docId == docId|
  {
    var c := s.appointments;
    var p := (a: Appointment) => a.docId == docId;
    assert ForDoctor(s, docId) == FindIn(c.byId, c.order, p);
    FindInCount(c.byId, c.order, p);
    assert MatchingIds(c.byId, c.order, p)
        == set k | k in c.byId && c.byId[k].docId == docId;
  }

  /** An appointment saved last comes last in its doctor's list, so the
      dashboard shows it first among the latest appointments. */
  lemma NewAppointmentShownFirst(s: Store, apptId: ApptId, a: Appointment)
    requires s.appointments.Valid() && apptId !in s.appointments.byId
    ensures var s' := s.(appointments := Insert(s.appointments, apptId, a).value);
            && ForDoctor(s', a.docId) == ForDoctor(s, a.docId) + [a]
            && Latest(ForDoctor(s', a.docId))[0] == a
  {
    var c := s.appointments;
    var p := (x: Appointment) => x.docId == a.docId;
    var s' := s.(appointments := Insert(c, apptId, a).value);
    assert ForDoctor(s', a.docId) == FindIn(c.byId[apptId := a], c.order + [apptId], p);
    assert ForDoctor(s, a.docId) == FindIn(c.byId, c.order, p);
    FindInAppend(c.byId[apptId := a], c.order, [apptId], p);
    FindInFrame(c.byId, c.order, p, apptId, a);
  }

  /** `Array.prototype.reverse` on a sequence. */
  function Reverse<T>(xs: seq<T>): (r: seq<T>)
    ensures |r| == |xs|
    ensures forall i :: 0 <= i < |xs| ==> r[i] == xs[|xs| - 1 - i]
  {
    if xs == [] then [] else Reverse(xs[1..]) + [xs[0]]
  }

  /** `reverse().slice(0, 5)`: the last five appointments, newest first. */
  function Latest(appts: seq<Appointment>): (r: seq<Appointment>)
    ensures |r| == Min(LatestCount, |appts|)
    ensures forall i :: 0 <= i < |r| ==> r[i] == appts[|appts| - 1 - i]
    ensures |appts| > 0 ==> r[0] == appts[|appts| - 1]
  {
    Reverse(appts)[..Min(LatestCount, |appts|)]
  }

  /** Each `userId` occurs at most once in `ids`. */
  predicate Distinct(ids: seq<UserId>) {
    forall i, j :: 0 <= i < j < |ids| ==> ids[i] != ids[j]
  }

  /** A list without repeats has as many elements as its set of elements. */
  lemma {:induction false} DistinctCard(ids: seq<UserId>)
    requires Distinct(ids)
    ensures |set x | x in ids| == |ids|
  {
    if ids != [] {
      var init := ids[..|ids| - 1];
      DistinctCard(init);
      assert (set x | x in ids) == (set x | x in init) + {ids[|ids| - 1]};
      assert ids[|ids| - 1] !in init;
    }
  }

  /** The first pass of `doctorDashboard`: add up the earning amounts. */
  method SumEarnings(appts: seq<Appointment>) returns (earnings: int)
    ensures earnings == Earnings(appts)
  {
    earnings := 0;
    var i := 0;
    while i < |appts|
      invariant 0 <= i <= |appts|
      invariant earnings == Earnings(appts[..i])
    {
      assert appts[..i + 1][..i] == appts[..i];
      if appts[i].isCompleted || appts[i].payment {
        earnings := earnings + appts[i].amount;
      }
      i := i + 1;
    }
    assert appts[..|appts|] == appts;
  }

  /** The second pass of `doctorDashboard`: collect each `userId` the first
      time it is seen, and count them. */
  method CountPatients(appts: seq<Appointment>) returns (count: nat)
    ensures count == |Patients(appts)|
  {
    var patients: seq<UserId> := [];
    var i := 0;
    while i < |appts|
      invariant 0 <= i <= |appts|
      invariant Distinct(patients)
      invariant (set x | x in patients) == Patients(appts[..i])
    {
      assert Patients(appts[..i + 1]) == Patients(appts[..i]) + {appts[i].userId};
      if appts[i].userId !in patients {
        patients := patients + [appts[i].userId];
      }
      i := i + 1;
    }
    assert appts[..|appts|] == appts;
    DistinctCard(patients);
    count := |patients|;
  }

  /** `doctorDashboard`: both passes over the doctor's appointments, the
      count, and the latest five. */
  method DoctorDashboard(s: Store, docId: DocId) returns (reply: Reply, dash: DashData)
    ensures reply == Ok(DashboardGenerated)
    ensures dash.earnings == Earnings(ForDoctor(s, docId))
    ensures dash.appointments == |ForDoctor(s, docId)|
    ensures dash.patients == |Patients(ForDoctor(s, docId))|
    ensures dash.latestAppointments == Latest(ForDoctor(s, docId))
  {
    var appts := ForDoctor(s, docId);
    var earnings := SumEarnings(appts);
    var patients := CountPatients(appts);
    dash := DashData(earnings, |appts|, patients, Latest(appts));
    reply := Ok(DashboardGenerated);
  }

  /** The dashboard never counts more patients than appointments. */
  lemma {:induction false} PatientsAtMostAppointments(appts: seq<Appointment>)
    ensures |Patients(appts)| <= |appts|
  {
    if appts != [] {
      var init := appts[..|appts| - 1];
      PatientsAtMostAppointments(init);
      assert Patients(appts) == Patients(init) + {appts[|appts| - 1].userId};
    }
  }

  /** Earnings add up over a split of the appointment list. */
  lemma {:induction false} EarningsAppend(a: seq<Appointment>, b: seq<Appointment>)
    ensures Earnings(a + b) == Earnings(a) + Earnings(b)
  {
    if b != [] {
      var b' := b[..|b| - 1];
      assert (a + b)[..|a + b| - 1] == a + b';
      EarningsAppend(a, b');
    } else {
      assert a + b == a;
    }
  }

  /** With no completed or paid appointment the earnings are 0. */
  lemma {:induction false} EarningsNone(appts: seq<Appointment>)
    requires forall i :: 0 <= i < |appts| ==> !Earns(appts[i])
    ensures Earnings(appts) == 0
  {
    if appts != [] {
      EarningsNone(appts[..|appts| - 1]);
    }
  }

  /** Earnings depend only on the amount and the two earning flags, position
      by position. */
  lemma {:induction false} EarningsPointwise(a: seq<Appointment>, b: seq<Appointment>)
    requires |a| == |b|
    requires forall i :: 0 <= i < |a| ==> Earns(a[i]) == Earns(b[i]) && a[i].amount == b[i].amount
    ensures Earnings(a) == Earnings(b)
  {
    if a != [] {
      EarningsPointwise(a[..|a| - 1], b[..|b| - 1]);
    }
  }

  /** Patients depend only on `userId`, position by position. */
  lemma PatientsPointwise(a: seq<Appointment>, b: seq<Appointment>)
    requires |a| == |b|
    requires forall i :: 0 <= i < |a| ==> a[i].userId == b[i].userId
    ensures Patients(a) == Patients(b)
  {
  }

  /** A doctor cancelling an appointment changes none of the dashboard's
      counts for any doctor: cancelled appointments still earn and still
      count. */
  lemma CancelKeepsDashboard(s: Store, docId: DocId, apptId: ApptId, viewer: DocId)
    ensures var s' := DoctorController.AppointmentCancel(s, docId, apptId).store;
            && Earnings(ForDoctor(s', viewer)) == Earnings(ForDoctor(s, viewer))
            && |ForDoctor(s', viewer)| == |ForDoctor(s, viewer)|
            && Patients(ForDoctor(s', viewer)) == Patients(ForDoctor(s, viewer))
  {
    if DoctorController.OwnedBy(s, docId, apptId) {
      var m := s.appointments.byId;
      var a := m[apptId];
      var s' := DoctorController.AppointmentCancel(s, docId, apptId).store;
      assert s'.appointments == Collection(m[apptId := a.(cancelled := true)], s.appointments.order);
      var p := (x: Appointment) => x.docId == viewer;
      FindInReplace(m, s.appointments.order, p, apptId, a.(cancelled := true));
      assert ForDoctor(s, viewer) == FindIn(m, s.appointments.order, p);
      assert ForDoctor(s', viewer) == FindIn(m[apptId := a.(cancelled := true)], s.appointments.order, p);
      EarningsPointwise(ForDoctor(s, viewer), ForDoctor(s', viewer));
      PatientsPointwise(ForDoctor(s, viewer), ForDoctor(s', viewer));
    }
  }
}

=== FILE: doctor_controller.dfy ===
/** The doctor-side handlers that change state: the availability toggle, the
    two appointment flag setters, the profile update, and doctor login. */
module DoctorController {
  import opened Common
  import opened Collections
  import opened Records

  const AvailabilityChanged := "Availability changed"
  const AppointmentCompleted := "Appointment completed"
  const CannotComplete := "Cannot complete appointment"
  const AppointmentCancelled := "Appointment cancelled"
  const CannotCancel := "Cannot cancell appointment"   // spelled so in the handler
  const ProfileUpdated := "Doctor profile updated!"
  const DoctorFetched := "Doctor fetched successfully"
  const InvalidCredentials := "Invalid Credentials"

  /** `changeAvailability`: reads the doctor, then writes back the negation of
      its `available` flag. With no such doctor the read yields `null` and the
      dereference throws, so the reply is a failure and nothing is written. */
  function ChangeAvailability(s: Store, docId: DocId): (out: Outcome)
    ensures out.reply.success <==> docId in s.doctors.byId
    ensures docId !in s.doctors.byId ==>
              out.reply == Caught(NullField("available")) && out.store == s
    ensures docId in s.doctors.byId ==>
              && out.reply == Ok(AvailabilityChanged)
              && docId in out.store.doctors.byId
              && out.store.doctors.byId[docId].available == !s.doctors.byId[docId].available
              && out.store.doctors.byId[docId].(available := s.doctors.byId[docId].available)
                 == s.doctors.byId[docId]
    ensures out.store.doctors.byId.Keys == s.doctors.byId.Keys
    ensures out.store.doctors.order == s.doctors.order
    ensures forall d :: d in s.doctors.byId && d != docId ==>
              out.store.doctors.byId[d] == s.doctors.byId[d]
    ensures out.store.appointments == s.appointments && out.store.users == s.users
    ensures s.Valid() ==> out.store.Valid()
  {
    match FindById(s.doctors, docId)
    case None => Outcome(s, Caught(NullField("available")))
    case Some(d) =>
      var doctors := Replace(s.doctors, docId, d.(available := !d.available));
      Outcome(s.(doctors := doctors), Ok(AvailabilityChanged))
  }

  /** Toggling availability twice gives back the original store. */
  lemma ChangeAvailabilityInvolution(s: Store, docId: DocId)
    ensures ChangeAvailability(ChangeAvailability(s, docId).store, docId).store == s
  {
  }

  /** The ownership guard shared by `appointmentComplete` and `appointmentCancel`:
      the appointment exists and was booked with the requesting doctor. */
  predicate OwnedBy(s: Store, docId: DocId, apptId: ApptId) {
    apptId in s.appointments.byId && s.appointments.byId[apptId].docId == docId
  }

  /** The store after `findByIdAndUpdate(apptId, update)`. */
  function UpdateAppointment(s: Store, apptId: ApptId, a: Appointment): Store {
    s.(appointments := Replace(s.appointments, apptId, a))
  }

  /** `appointmentComplete`: behind the ownership guard, sets `isCompleted` and
      nothing else; it does not look at `cancelled`. */
  function AppointmentComplete(s: Store, docId: DocId, apptId: ApptId): (out: Outcome)
    ensures out.reply.success <==> OwnedBy(s, docId, apptId)
    ensures !OwnedBy(s, docId, apptId) ==> out.reply == Fail(CannotComplete) && out.store == s
    ensures OwnedBy(s, docId, apptId) ==>
              && out.reply == Ok(AppointmentCompleted)
              && apptId in out.store.appointments.byId
              && out.store.appointments.byId[apptId].isCompleted
              && out.store.appointments.byId[apptId].(isCompleted := s.appointments.byId[apptId].isCompleted)
                 == s.appointments.byId[apptId]
    ensures out.store.appointments.byId.Keys == s.appointments.byId.Keys
    ensures out.store.appointments.order == s.appointments.order
    ensures forall a :: a in s.appointments.byId && a != apptId ==>
              out.store.appointments.byId[a] == s.appointments.byId[a]
    ensures out.store.doctors == s.doctors && out.store.users == s.users
    ensures s.Valid() ==> out.store.Valid()
  {
    match FindById(s.appointments, apptId)
    case Some(a) =>
      if a.docId == docId then
        Outcome(UpdateAppointment(s, apptId, a.(isCompleted := true)), Ok(AppointmentCompleted))
      else Outcome(s, Fail(CannotComplete))
    case None => Outcome(s, Fail(CannotComplete))
  }

  /** Completing twice leaves the same store as completing once, and the
      second request succeeds again. */
  lemma AppointmentCompleteIdempotent(s: Store, docId: DocId, apptId: ApptId)
    ensures var once := AppointmentComplete(s, docId, apptId);
            AppointmentComplete(once.store, docId, apptId) == once
  {
  }

  /** A cancelled appointment can still be completed by its doctor, and stays
      cancelled. */
  lemma CompleteIgnoresCancelled(s: Store, docId: DocId, apptId: ApptId)
    requires OwnedBy(s, docId, apptId) && s.appointments.byId[apptId].cancelled
    ensures AppointmentComplete(s, docId, apptId).reply.success
    ensures AppointmentComplete(s, docId, apptId).store.appointments.byId[apptId].cancelled
  {
  }

  /** `appointmentCancel`: the same guard, then sets `cancelled` and nothing
      else; the doctor record (and any booked slot in it) is left alone. */
  function AppointmentCancel(s: Store, docId: DocId, apptId: ApptId): (out: Outcome)
    ensures out.reply.success <==> OwnedBy(s, docId, apptId)
    ensures !OwnedBy(s, docId, apptId) ==> out.reply == Fail(CannotCancel) && out.store == s
    ensures OwnedBy(s, docId, apptId) ==>
              && out.reply == Ok(AppointmentCancelled)
              && apptId in out.store.appointments.byId
              && out.store.appointments.byId[apptId].cancelled
              && out.store.appointments.byId[apptId].(cancelled := s.appointments.byId[apptId].cancelled)
                 == s.appointments.byId[apptId]
    ensures out.store.appointments.byId.Keys == s.appointments.byId.Keys
    ensures out.store.appointments.order == s.appointments.order
    ensures forall a :: a in s.appointments.byId && a != apptId ==>
              out.store.appointments.byId[a] == s.appointments.byId[a]
    ensures out.store.doctors == s.doctors && out.store.users == s.users
    ensures s.Valid() ==> out.store.Valid()
  {
    match FindById(s.appointments, apptId)
    case Some(a) =>
      if a.docId == docId then
        Outcome(UpdateAppointment(s, apptId, a.(cancelled := true)), Ok(AppointmentCancelled))
      else Outcome(s, Fail(CannotCancel))
    case None => Outcome(s, Fail(CannotCancel))
  }

  /** Cancelling twice leaves the same store as cancelling once, and the
      second request succeeds again rather than reporting an error. */
  lemma AppointmentCancelIdempotent(s: Store, docId: DocId, apptId: ApptId)
    ensures var once := AppointmentCancel(s, docId, apptId);
            AppointmentCancel(once.store, docId, apptId) == once
  {
  }

  /** `updateDoctorProfile`: overwrites `fees`, `address` and `available`. The
      update of an id with no doctor matches nothing and throws nothing, so
      the reply is a success either way. */
  function UpdateDoctorProfile(s: Store, docId: DocId, fees: int, address: Address, available: bool)
    : (out: Outcome)
    ensures out.reply == Ok(ProfileUpdated)
    ensures docId !in s.doctors.byId ==> out.store == s
    ensures out.store.doctors.byId.Keys == s.doctors.byId.Keys
    ensures out.store.doctors.order == s.doctors.order
    ensures docId in s.doctors.byId ==>
              var d, d' := s.doctors.byId[docId], out.store.doctors.byId[docId];
              && d'.fees == fees && d'.address == address && d'.available == available
              && d'.(fees := d.fees, address := d.address, available := d.available) == d
    ensures forall d :: d in s.doctors.byId && d != docId ==>
              out.store.doctors.byId[d] == s.doctors.byId[d]
    ensures out.store.appointments == s.appointments && out.store.users == s.users
    ensures s.Valid() ==> out.store.Valid()
  {
    match FindById(s.doctors, docId)
    case None => Outcome(s, Ok(ProfileUpdated))
    case Some(d) =>
      var d' := d.(fees := fees, address := address, available := available);
      Outcome(s.(doctors := Replace(s.doctors, docId, d')), Ok(ProfileUpdated))
  }

  /** Repeating a profile update with the same values changes nothing more. */
  lemma UpdateDoctorProfileIdempotent(s: Store, docId: DocId, fees: int, address: Address, available: bool)
    ensures var once := UpdateDoctorProfile(s, docId, fees, address, available);
            UpdateDoctorProfile(once.store, docId, fees, address, available) == once
  {
  }

  /** After a profile update that sets `available := v`, toggling the
      availability leaves it at `!v`. */
  lemma UpdateThenToggle(s: Store, docId: DocId, fees: int, address: Address, v: bool)
    requires docId in s.doctors.byId
    ensures var t := ChangeAvailability(UpdateDoctorProfile(s, docId, fees, address, v).store, docId);
            t.reply.success && t.store.doctors.byId[docId].available == !v
  {
  }

  /** `loginDoctor`: the first doctor in natural order with this email must
      exist, and `compare` must accept the password against that doctor's
      stored hash; every failure carries the same message, so it does not
      reveal which check failed. */
  function LoginDoctor(s: Store, email: string, password: string, compare: (string, string) -> bool)
    : (r: Reply)
    ensures r.success ==> r == Ok(DoctorFetched)
    ensures !r.success ==> r == Fail(InvalidCredentials)
    ensures r.success <==>
              exists i :: FirstMatch(s.doctors.byId, s.doctors.order, DoctorWithEmail(email), i)
                          && compare(password, s.doctors.byId[s.doctors.order[i]].password)
    ensures (s.doctors.Valid() && forall k :: k in s.doctors.byId ==> s.doctors.byId[k].email != email)
            ==> !r.success
    ensures s.doctors.Valid() && UniqueBy(s.doctors, DoctorEmail) ==>
              (r.success <==> exists k :: k in s.doctors.byId && s.doctors.byId[k].email == email
                                         && compare(password, s.doctors.byId[k].password))
  {
    match FindOne(s.doctors, DoctorWithEmail(email))
    case None => Fail(InvalidCredentials)
    case Some(d) =>
      if compare(password, d.password) then Ok(DoctorFetched) else Fail(InvalidCredentials)
  }
}

=== FILE: records.dfy ===
/** The documents the handlers read and write, and the store holding them. */
module Records {
  import opened Common
  import opened Collections

  type DocId = string
  type ApptId = string
  type UserId = string

  /** A doctor's address: the object `JSON.parse` builds from the form field. */
  datatype Address = Address(entries: map<string, string>)

  /** A doctor document as `addDoctor` writes it. */
  datatype Doctor = Doctor(
    name: string,
    email: string,
    image: string,
    password: string,   // the bcrypt hash, never the plaintext
    speciality: string,
    degree: string,
    experience: string,
    about: string,
    fees: int,
    address: Address,
    date: int,
    available: bool)

  /** An appointment document with its three independent status flags. */
  datatype Appointment = Appointment(
    userId: UserId,
    docId: DocId,
    slotDate: string,
    slotTime: string,
    amount: int,
    date: int,
    cancelled: bool,
    payment: bool,
    isCompleted: bool)

  /** A patient account as `createUser` writes it. */
  datatype User = User(name: string, email: string, password: string)

  /** The `findOne({ email })` filters on the user and doctor collections. */
  function UserWithEmail(email: string): User -> bool { (u: User) => u.email == email }

  function DoctorWithEmail(email: string): Doctor -> bool { (d: Doctor) => d.email == email }

  /** The email a user or doctor registered with, as a key for `UniqueBy`. */
  function UserEmail(u: User): string { u.email }

  function DoctorEmail(d: Doctor): string { d.email }

  /** The three collections the handlers touch. */
  datatype Store = Store(
    doctors: Collection<DocId, Doctor>,
    appointments: Collection<ApptId, Appointment>,
    users: Collection<UserId, User>)
  {
    ghost predicate Valid() {
      doctors.Valid() && appointments.Valid() && users.Valid()
    }
  }

  /** What a state-changing handler leaves behind: the new store and its reply. */
  datatype Outcome = Outcome(store: Store, reply: Reply)
}

=== FILE: user_controller.dfy ===
/** Patient registration and login. Email syntax (`validator.isEmail`) and
    password checking (`bcrypt.compare`) are parameters the handlers consult. */
module UserController {
  import opened Common
  import opened Collections
  import opened Records

  const MissingDetails := "Missing Details"
  const InvalidEmail := "Enter valid email"
  const WeakPassword := "Enter a stronger password"
  const UserAdded := "User added successfully"
  const NoSuchUser := "User does not exist"
  const UserFetched := "User fetched successfully"
  const InvalidCredentials := "Invalid credentials"

  const MinPasswordLength := 8

  /** A field JavaScript treats as false: absent, or the empty string. */
  predicate Missing(f: Option<string>) { f.None? || f.value == "" }

  /** `createUser`. The checks run in this order, each with its own message:
      a missing or empty field, then the email syntax, then the password
      length; only then is the user saved, with the hash `hashed` in place of
      the password, under the fresh id `newId`. */
  function CreateUser(
    s: Store, name: Option<string>, email: Option<string>, password: Option<string>,
    isEmail: string -> bool, hashed: string, newId: UserId): (out: Outcome)
    ensures out.reply == Fail(MissingDetails) <==> Missing(name) || Missing(password) || Missing(email)
    ensures out.reply == Fail(InvalidEmail) <==>
              !Missing(name) && !Missing(password) && !Missing(email) && !isEmail(email.value)
    ensures out.reply == Fail(WeakPassword) <==>
              && !Missing(name) && !Missing(password) && !Missing(email) && isEmail(email.value)
              && |password.value| < MinPasswordLength
    ensures out.reply.success <==>
              && !Missing(name) && !Missing(password) && !Missing(email) && isEmail(email.value)
              && |password.value| >= MinPasswordLength && newId !in s.users.byId
    ensures (!Missing(name) && !Missing(password) && !Missing(email) && isEmail(email.value)
             && |password.value| >= MinPasswordLength && newId in s.users.byId)
            ==> out.reply == Caught(DuplicateKey)
    ensures out.reply.success ==> out.store.users.order == s.users.order + [newId]
    ensures out.reply.success ==>
              && out.reply == Ok(UserAdded)
              && out.store.users.byId.Keys == s.users.byId.Keys + {newId}
              && out.store.users.byId[newId] == User(name.value, email.value, hashed)
              && (forall u :: u in s.users.byId ==> out.store.users.byId[u] == s.users.byId[u])
              && out.store.doctors == s.doctors && out.store.appointments == s.appointments
    ensures !out.reply.success ==> out.store == s
    ensures s.Valid() ==> out.store.Valid()
  {
    if Missing(name) || Missing(password) || Missing(email) then Outcome(s, Fail(MissingDetails))
    else if !isEmail(email.value) then Outcome(s, Fail(InvalidEmail))
    else if |password.value| < MinPasswordLength then Outcome(s, Fail(WeakPassword))
    else
      match Insert(s.users, newId, User(name.value, email.value, hashed))
      case None => Outcome(s, Caught(DuplicateKey))
      case Some(users) => Outcome(s.(users := users), Ok(UserAdded))
  }

  /** A missing field is reported before anything else is looked at: the
      reply does not depend on the email check, the password or the store. */
  lemma MissingDetailsFirst(
    s: Store, t: Store, name: Option<string>, email: Option<string>, password: Option<string>,
    isEmail: string -> bool, isEmail': string -> bool, hashed: string, hashed': string,
    newId: UserId, newId': UserId)
    requires Missing(name) || Missing(password) || Missing(email)
    ensures CreateUser(s, name, email, password, isEmail, hashed, newId).reply
            == CreateUser(t, name, email, password, isEmail', hashed', newId').reply
  {
  }

  /** An invalid email is reported before a short password. */
  lemma EmailBeforePasswordLength(
    s: Store, name: string, email: string, password: string,
    isEmail: string -> bool, hashed: string, newId: UserId)
    requires name != "" && email != "" && password != "" && !isEmail(email)
    ensures CreateUser(s, Some(name), Some(email), Some(password), isEmail, hashed, newId).reply
            == Fail(InvalidEmail)
  {
  }

  /** `loginUser`: the first user in natural order with this email must
      exist, and `compare` must accept the password against that user's
      stored hash; a later user with the same email is never compared. */
  function LoginUser(s: Store, email: string, password: string, compare: (string, string) -> bool)
    : (r: Reply)
    ensures r == Fail(NoSuchUser) || r == Fail(InvalidCredentials) || r == Ok(UserFetched)
    ensures r == Fail(NoSuchUser) <==>
              forall k :: k in s.users.order && k in s.users.byId ==> s.users.byId[k].email != email
    ensures r.success <==>
              exists i :: FirstMatch(s.users.byId, s.users.order, UserWithEmail(email), i)
                          && compare(password, s.users.byId[s.users.order[i]].password)
    ensures s.users.Valid() ==>
              (r == Fail(NoSuchUser) <==> forall k :: k in s.users.byId ==> s.users.byId[k].email != email)
    ensures s.users.Valid() && UniqueBy(s.users, UserEmail) ==>
              (r.success <==> exists k :: k in s.users.byId && s.users.byId[k].email == email
                                         && compare(password, s.users.byId[k].password))
  {
    match FindOne(s.users, UserWithEmail(email))
    case None => Fail(NoSuchUser)
    case Some(u) =>
      if compare(password, u.password) then Ok(UserFetched) else Fail(InvalidCredentials)
  }

  /** A user just registered can log in with the same password, provided the
      emails are unique and `compare` accepts the password against its hash. */
  lemma RegisterThenLogin(
    s: Store, name: string, email: string, password: string,
    isEmail: string -> bool, hashed: string, newId: UserId, compare: (string, string) -> bool)
    requires s.users.Valid() && UniqueBy(s.users, UserEmail)
    requires forall k :: k in s.users.byId ==> s.users.byId[k].email != email
    requires CreateUser(s, Some(name), Some(email), Some(password), isEmail, hashed, newId).reply.success
    requires compare(password, hashed)
    ensures var s' := CreateUser(s, Some(name), Some(email), Some(password), isEmail, hashed, newId).store;
            LoginUser(s', email, password, compare) == Ok(UserFetched)
  {
  }
}
